=== FILE: README.md ===
# sundae-party/pki in Dafny

A model of the core of a small private PKI toolkit written in Go. The toolkit
creates a self-signed root CA and builds unsigned leaf templates (CSRs). It
signs those templates with the CA and reloads a certificate and its RSA key
from PEM files. It also assembles TLS configurations: a server one, which may
require verified client certificates, and a gRPC client one.

The repository's own logic is the wiring around standard-library calls:
- which template fields are set, and to which role flags;
- which template, parent, public key and signing key reach the signer;
- which PEM label is demanded;
- when a password triggers decryption;
- in what order errors are raised, swallowed or turned into panics;
- when client-certificate verification is switched on.

The model states all of this precisely. Every standard-library call is an
uninterpreted function held in the `Primitives.Primitives` record. This covers
RSA key generation, `x509.CreateCertificate`/`ParseCertificate`, PKCS#1,
`pem.Encode`/`Decode`, `x509.DecryptPEMBlock`, `tls.X509KeyPair` and
`CertPool.AppendCertsFromPEM`. Properties that need something from those
calls name it as a hypothesis predicate in that module. Each is stated only
for the inputs the repository produces, the two fixed PEM labels and keys
that `rsa.GenerateKey` can return (`GeneratedKey`), because the library does
not promise it beyond them:
- `PemRoundTrip`: PEM decoding inverts encoding, for header-less blocks
  labelled "CERTIFICATE" or "RSA PRIVATE KEY".
- `Pkcs1RoundTrip`: PKCS#1 parsing inverts marshalling, for generated keys.
- `SignerPreservesContent`: parsing a certificate signed for the public half
  of a generated key shows the template's fields, the parent's subject as
  issuer, and the certified key. Validity bounds are cut to whole seconds, as
  X.509 time encodings store them.
- `DecryptNeedsDekInfo`: RFC 1423 decryption refuses an unencrypted block.

Modelling conventions:
- Go's nil pointers are `Option` fields.
- A Go panic and a `log.Fatal` are the `Panic` and `Exit` cases of `Base.Outcome`.
- Files are a `map<string, seq<byte>>`.
- `crypto/rand.Reader` is one `Entropy` argument per random draw.
- `time.Now()` is an argument.
- Time is a count of nanoseconds, held in an unbounded integer.
- The key-usage bitmask is the set of bits that are on, so Go's `|` is set union.

Files, one module each: `base.dfy` (Go-level types), `x509.dfy` (names, keys,
certificates, RFC 5280 role profiles), `tls.dfy`, `types.dfy` (`types.Cert`),
`primitives.dfy`, `ca.dfy`, `csr.dfy`, `loader.dfy`, `utils.dfy` (utils/cert.go),
and `lifecycle.dfy` (lemmas relating create, sign, reload and issue).

## Model

| member | source | states |
|---|---|---|
| Ca.CaTemplate | ca/ca.go:33-42 | The root template has the CA profile of RFC 5280 (basic constraints valid, cA set, keyCertSign present). Its key usage is exactly {digitalSignature, keyCertSign} and its extended key usage is exactly [ClientAuth, ServerAuth]. Serial is 2021, the subject is the one given, and NotAfter = NotBefore + duration with NotBefore = start. The window is non-empty iff the duration is positive. |
| Ca.CreateCa | ca/ca.go:17-65 | Either returns a complete self-signed record or panics; it never returns an error value. A key-generation failure panics with that error, and so does a signing failure. When both succeed it returns the record. On success the armored certificate is the root template signed with that template as its own parent. The generated key's public half is certified and the same key signs. The armored key is that key's PKCS#1 bytes under "RSA PRIVATE KEY", and the record holds the generated key. |
| Ca.Sign | ca/ca.go:68-95 | A missing certificate or key on either record panics, and so does a signing failure. When both records carry a certificate and a key and signing succeeds, it returns the record. On success the armored certificate is the CSR template signed under the CA certificate by the CA key, certifying the CSR's public key. The returned Cert and Key are the CSR's own objects: the unsigned template, not a parse of the signed bytes. The armored key is the CSR key under "RSA PRIVATE KEY". |
| Csr.LeafTemplate | csr/csr.go:25-35 | The leaf template is an end entity: cA not set, basic constraints not valid, and key usage exactly {digitalSignature}, so never keyCertSign. Extended key usage is [ClientAuth, ServerAuth]. DNS names and IP addresses are the given sequences unchanged, including order and duplicates. Validity is start .. start + duration. Serial is 2021 and SubjectKeyId is [1,2,3,4,5,6] whatever the inputs, so two leaves of one CA share the (issuer, serial) pair that section 4.1.2.2 of RFC 5280 requires to be unique. |
| Csr.CreateCSR | csr/csr.go:16-42 | Succeeds exactly when key generation does; otherwise it panics with the key-generation error. On success it holds the generated key with the leaf template, and both armored fields are absent. |
| Loader.LoadRsa | utils/loader.go:44-73 | An unreadable key file returns the open error. A file without a PEM block panics. A block not labelled "RSA PRIVATE KEY" returns the wrong-type error. An empty password parses the block bytes as stored; any other password decrypts first, returns a decryption error unchanged, and on success parses the decrypted bytes. A PKCS#1 failure is returned. On success the key is the parse of the returned bytes, which are raw DER, not re-armored. |
| Loader.LoadCertFromFile | utils/loader.go:14-42 | An unreadable certificate file returns its open error whatever the key file holds. A file without a PEM block panics. Otherwise any key-loading failure is returned unchanged. It succeeds exactly when the first block decodes and loadRsa loads, whether or not the certificate parses. On success CertPem is the re-encoding of the first block and Cert is whatever parsing it gave, possibly none. Key and KeyPem are the key and raw bytes that loadRsa returned. |
| Loader.KeyWithoutPemBlockPanics | utils/loader.go:51-52 | A readable key file with no PEM block makes loadRsa panic instead of returning an error. |
| Loader.CertWithoutPemBlockPanics | utils/loader.go:21-22 | A readable certificate file with no PEM block makes the loader panic, whatever the key file holds. |
| Loader.CertParseErrorSwallowed | utils/loader.go:22-41 | When the certificate block does not parse and the key loads, the loader reports success with no certificate object. Signing with that record as CA then panics. |
| Loader.LoadRsaChecked | utils/loader.go:44-73 | Never panics: a file with no block returns an error. On every input where loadRsa does not panic, it gives the same result. |
| Loader.LoadCertFromFileChecked | utils/loader.go:14-42 | Never panics, and every success is a complete record. It succeeds exactly when the first block decodes, the certificate parses and the corrected key loader loads. A missing block or a certificate parse error is returned as an error. When the certificate parses it agrees with the original loader, except that the original's key-block panic becomes an error. |
| Loader.CheckedAgreesWithAsWritten | utils/loader.go:14-42 | Wherever the original loader returns a record with a certificate, the corrected one returns the same record. The same holds for the errors it returns when the certificate is absent or parses. |
| Loader.CertificateAsKeyIsWrongType | utils/loader.go:51-54 | A key file holding a "CERTIFICATE" block fails with the wrong-type error, not a parse error. This holds for either loader and any password. |
| Utils.CreateCertFromCAFile | utils/cert.go:24-40 | The CA is loaded with the empty password and any loading outcome other than success is returned as it is, so a readable CA certificate file with no PEM block panics, and so does a CA key file with no PEM block once the certificate file holds one. A loaded CA with no certificate object still gets a key generated, then Sign panics on the nil certificate. Otherwise key-generation and signing failures panic, and when both succeed it returns the record. On success the result holds the leaf template for a Common-Name-only subject valid from `now` and the freshly generated key, and KeyPem, the bytes written to the leaf key file, is that key's PKCS#1 encoding under "RSA PRIVATE KEY". Its armored certificate is that template signed under the loaded CA certificate by the loaded CA key. |
| Utils.CreateCertFromCAFileChecked | utils/cert.go:24-40 | The same composition over the corrected loader. Every loading failure is returned as an error before any key is generated; a panic means key generation or signing failed, and when the CA loads and both succeed it returns the record. A success holds the same leaf template, generated key, armored key and signed certificate as the original composition states. |
| Utils.CheckedIssueAgreesWithAsWritten | utils/cert.go:27-40 | Every leaf the original composition issues is issued identically by the corrected one. The two agree whenever the CA certificate file is missing, or holds a parsable block with a CA key file that does not make loadRsa panic. |
| Utils.AccumulateConcat | utils/cert.go:86-92 | Building the pool from `a` and then from `b` gives the pool of `a + b`, in order. |
| Utils.ServerPoolExtends | utils/cert.go:82-96 | When every path of `a + b` is readable, the server's ClientCAs pool for the CA list `a + b` is the pool for `a` with the files of `b` appended in order. |
| Utils.BuildServerTlsConf | utils/cert.go:70-100 | A key-pair failure returns that error. An unreadable CA path ends the process with the first unreadable path's error; this happens iff the key pair loads and some CA path is unreadable. On success the config holds exactly the server key pair and never sets RootCAs. Client certificates are requested iff the CA list is non-empty. With no CAs, ClientAuth and ClientCAs keep their defaults. Otherwise ClientAuth is RequireAndVerifyClientCert and ClientCAs is the pool of every CA file in order. A file that adds nothing is passed over. |
| Utils.LoadKeyPair | utils/cert.go:103-129 | Failures are checked in order: key pair, CA file read, then pool append. It succeeds exactly when the key pair loads, the CA file is readable and it adds a certificate to the pool. It fails with "Cann't add ca" exactly when the CA file adds nothing. On success Certificates is exactly the client pair, RootCAs is the pool built from the CA file, and no client-CA settings are touched. |
| Utils.ClientTrustsServerPoolOfSameCa | utils/cert.go:112-125 | A client's trusted roots are exactly the pool a server builds from the same single CA file. |
| Lifecycle.ArmoredBundleReloads | utils/loader.go:17-72 | Files armored the way CreateCa and Sign armor them, holding a generated key, reload with the empty password to the same key. The reloaded CertPem equals the file byte for byte. The reloaded KeyPem is the bare PKCS#1 encoding, not the armored file. |
| Lifecycle.WrittenKeysNeedEmptyPassword | utils/loader.go:56-64 | A key file this repository wrote is unencrypted, so a non-empty password makes loading fail with the decryption error, unchanged. |
| Lifecycle.CaBundleReloads | ca/ca.go:33-62 | The files CreateCa writes reload, through the original loader and identically through the corrected one, as a CA-profile certificate. Its issuer equals its subject and it certifies its own generated key. Its validity is the requested window cut to whole seconds. |
| Lifecycle.LeafFromReloadedCa | utils/cert.go:27-40 | A leaf issued from CreateCa's files, identically by both compositions, is signed by the key CreateCa generated. It reads back as an end entity for the requested Common Name, DNS names and key, issued by the root's subject. For a whole-second duration, NotAfter - NotBefore is exactly that duration. |

## Left out

- The command-line layer (cmd/ca.go, cmd/serverCert.go, cmd/clientCert.go, cmd/read.go, main.go): flag parsing, the `"%dh"` duration string, directory creation, 0600 file writes and logging. It has no logic of its own.
- The file-writing half of CreateCertFromCAFile (utils/cert.go:43-62). The model returns the record whose CertPem and KeyPem would be written.
- Real cryptography and encodings: RSA-4096 generation, X.509/DER signing and parsing, PKCS#1, PEM framing (RFC 7468), RFC 1423 decryption, `tls.X509KeyPair`, the contents of an `x509.CertPool`, and `credentials.NewTLS`. All are uninterpreted. Signature validity is never proved; "signed by" means which arguments reached the signer.
- `credentials.NewTLS` is a wrapper around the config. Its cloning and its addition of "h2" to the protocol list are not modelled.
- The rest of `pem.Decode`'s output (the bytes after the first block) is never used by the source and is not modelled. The error that `pem.Encode` returns is ignored by the source, so encoding is total here.
- `time.Time.Add` overflow is not modelled: times are unbounded integers.
- `pkix.Name` keeps country, organization, organizational unit and Common Name. `x509.Certificate` keeps the fields the core sets or the lemmas read.
- A nil `*types.Cert` argument is not modelled; only its fields may be nil.
- The encrypted-key round trip: the source has no encrypting writer, so only the decrypting path is modelled.
- Lifecycle.LeafFromReloadedCa: says nothing about the IP addresses read back. Parsing returns IPv4 addresses in 4-byte form while templates may hold the 16-byte form, so equality is not what the library promises.
- Lifecycle.CaBundleReloads: says nothing about the SubjectKeyId read back. The library derives one for CA templates that leave it empty.
- The server path ignores `AppendCertsFromPEM`'s answer (utils/cert.go:91), so a CA file that adds nothing to the pool is passed over; the model follows the code.
- A certificate parse error in the loader is overwritten (utils/loader.go:22, 29); the model follows the code and the correction is under Findings.

## Findings

| source | as written | input that shows it | evidently intended | confidence | as-written member | corrected member |
|---|---|---|---|---|---|---|
| utils/loader.go:21-22 | `certBlock.Bytes` is read without checking for a nil block | a readable certificate file with no PEM block (any non-PEM bytes) | return an error | high; not executed | Loader.CertWithoutPemBlockPanics | Loader.LoadCertFromFileChecked |
| utils/loader.go:51-52 | `keyBlock.Type` is read without checking for a nil block | a readable key file with no PEM block | return an error | high; not executed | Loader.KeyWithoutPemBlockPanics | Loader.LoadRsaChecked |
| utils/loader.go:22-29 | the `err` from `x509.ParseCertificate` is overwritten by loadRsa's result | a CERTIFICATE block whose bytes are not valid DER, together with a valid key file | return the parse error before reading the key | high; not executed | Loader.CertParseErrorSwallowed | Loader.LoadCertFromFileChecked |

`Utils.CreateCertFromCAFile` models the code as written, including the three defects. `Utils.CreateCertFromCAFileChecked` composes the corrected loader instead. `Loader.CheckedAgreesWithAsWritten` and `Utils.CheckedIssueAgreesWithAsWritten` show that the correction changes nothing on inputs the original handles without these defects, and the lifecycle lemmas hold for both compositions.

=== FILE: base.dfy ===
/** Go-level building blocks shared by every package of the model: bytes, time,
    the random source, error values, the two failure-compatible result types and
    the filesystem the loaders read from. */
module Base {

  newtype byte = x: int | 0 <= x < 256

  type Bytes = seq<byte>

  /** An instant (Go's time.Time) as nanoseconds since the Unix epoch. */
  type Time = int

  /** Go's time.Duration: a signed count of nanoseconds. */
  type Duration = int

  const NanosPerSecond: int := 1_000_000_000

  /** The bytes one call draws from crypto/rand.Reader. */
  type Entropy = seq<byte>

  /** Go error values the core creates or passes on. */
  datatype Error =
    | PathError(op: string, path: string)   // *fs.PathError from a failed file read
    | ErrorString(text: string)             // errors.New
    | RuntimeError(text: string)            // cause of a Go runtime panic

  const NilDereference := RuntimeError("invalid memory address or nil pointer dereference")

  datatype Option<+T> = None | Some(value: T)

  /** What a standard-library call returns: a value or an error. */
  datatype Result<+T> = Success(value: T) | Failure(error: Error) {

    predicate IsFailure() {
      Failure?
    }

    function PropagateFailure<U>(): Result<U>
      requires Failure?
    {
      Failure(error)
    }

    function Extract(): T
      requires Success?
    {
      value
    }

    /** A nil pointer in place of the value on failure (Go's `(*T)(nil), err`). */
    function ToOption(): Option<T> {
      match this
      case Success(v) => Some(v)
      case Failure(_) => None
    }

    function ToOutcome(): Outcome<T> {
      match this
      case Success(v) => Ok(v)
      case Failure(e) => Err(e)
    }
  }

  /** How a call of the core ends: it returns a value, returns an error,
      panics, or ends the process through log.Fatal. */
  datatype Outcome<+T> =
    | Ok(value: T)
    | Err(error: Error)
    | Panic(cause: Error)
    | Exit(cause: Error)
  {

    predicate IsFailure() {
      !Ok?
    }

    function PropagateFailure<U>(): Outcome<U>
      requires !Ok?
    {
      if Err? then Err(error) else if Panic? then Panic(cause) else Exit(cause)
    }

    function Extract(): T
      requires Ok?
    {
      value
    }
  }

  /** The files visible to the process: a path is readable iff it is a key. */
  type FileSystem = map<string, Bytes>

  /** ioutil.ReadFile: the whole file, or the "open" path error. */
  function ReadFile(fs: FileSystem, path: string): Result<Bytes> {
    if path in fs then Success(fs[path]) else Failure(PathError("open", path))
  }
}

=== FILE: ca.dfy ===
/** ca/ca.go: creating the self-signed root and signing leaf templates with it. */
module Ca {
  import opened Base
  import opened X509
  import opened Primitives
  import opened Types

  /** The root template CreateCa self-signs: a CA for both TLS purposes, valid
      from `start` for `duration`. */
  function CaTemplate(subject: Name, start: Time, duration: Duration): (t: Certificate)
    ensures IsCaProfile(t)
    ensures t.keyUsage == {DigitalSignature, CertSign}
    ensures t.extKeyUsage == TlsExtKeyUsage
    ensures ValidFor(t, start, duration)
    ensures t.notBefore < t.notAfter <==> duration > 0
    ensures t.subject == subject && t.serialNumber == FixedSerial
    ensures t.issuer == EmptyName && t.publicKey.None?
    ensures t.dnsNames == [] && t.ipAddresses == [] && t.subjectKeyId == []
  {
    Certificate(
      serialNumber := FixedSerial,
      subject := subject,
      issuer := EmptyName,
      notBefore := start,
      notAfter := start + duration,
      keyUsage := {DigitalSignature, CertSign},
      extKeyUsage := TlsExtKeyUsage,
      basicConstraintsValid := true,
      isCA := true,
      subjectKeyId := [],
      dnsNames := [],
      ipAddresses := [],
      publicKey := None)
  }

  /** A usable root: every field present; the template is the root profile for
      `subject`; the armored certificate is that template signed under itself
      with the record's own key certifying its own public half; the armored key
      is that key's PKCS#1 encoding. */
  predicate IsSelfSignedCa(p: Primitives, signRand: Entropy, c: Cert,
                           subject: Name, start: Time, duration: Duration)
  {
    && IsComplete(c)
    && c.cert.value == CaTemplate(subject, start, duration)
    && SignedAndArmored(p, signRand, c.certPem.value, c.cert.value, c.cert.value,
                        c.key.value.publicKey, c.key.value)
    && c.keyPem.value == ArmorRsaKey(p, c.key.value)
  }

  /** CreateCa: generate a key, self-sign the root template with it, armor both.
      Either primitive failing panics, so no partial record is ever returned. */
  function CreateCa(p: Primitives, keyRand: Entropy, signRand: Entropy,
                    subject: Name, start: Time, duration: Duration): (r: Outcome<Cert>)
    ensures r.Ok? || r.Panic?
    ensures p.generateKey(keyRand, RsaKeyBits).Failure? ==> r == Panic(p.generateKey(keyRand, RsaKeyBits).error)
    ensures r.Ok? ==> IsSelfSignedCa(p, signRand, r.value, subject, start, duration)
    ensures r.Ok? ==> p.generateKey(keyRand, RsaKeyBits) == Success(r.value.key.value)
    ensures p.generateKey(keyRand, RsaKeyBits).Success? ==>
      var key := p.generateKey(keyRand, RsaKeyBits).value;
      var t := CaTemplate(subject, start, duration);
      var signed := p.createCertificate(signRand, t, t, key.publicKey, key);
      && (signed.Failure? ==> r == Panic(signed.error))
      && (signed.Success? ==> r.Ok?)
  {
    match p.generateKey(keyRand, RsaKeyBits)
    case Failure(e) => Panic(e)
    case Success(key) =>
      var keyPem := ArmorRsaKey(p, key);
      var template := CaTemplate(subject, start, duration);
      match p.createCertificate(signRand, template, template, key.publicKey, key)
      case Failure(e) => Panic(e)
      case Success(der) =>
        Ok(Cert(certPem := Some(ArmorCertificate(p, der)), keyPem := Some(keyPem),
                cert := Some(template), key := Some(key)))
  }

  /** Sign: the CSR's template signed under the CA's certificate by the CA's
      key, certifying the CSR's public key. The record returned carries the
      CSR's own template and key objects, not a parse of the signed bytes.
      A nil field or a signing failure panics. */
  function Sign(p: Primitives, signRand: Entropy, ca: Cert, csr: Cert): (r: Outcome<Cert>)
    ensures r.Ok? || r.Panic?
    ensures !HasCertAndKey(ca) || !HasCertAndKey(csr) ==> r == Panic(NilDereference)
    ensures r.Ok? ==> HasCertAndKey(ca) && HasCertAndKey(csr)
    ensures r.Ok? ==> r.value.cert == csr.cert && r.value.key == csr.key
    ensures r.Ok? ==> IsComplete(r.value)
    ensures r.Ok? ==>
      SignedAndArmored(p, signRand, r.value.certPem.value, csr.cert.value, ca.cert.value,
                       csr.key.value.publicKey, ca.key.value)
    ensures r.Ok? ==> r.value.keyPem == Some(ArmorRsaKey(p, csr.key.value))
    ensures HasCertAndKey(ca) && HasCertAndKey(csr) ==>
      var signed := p.createCertificate(signRand, csr.cert.value, ca.cert.value,
                                        csr.key.value.publicKey, ca.key.value);
      && (signed.Failure? ==> r == Panic(signed.error))
      && (signed.Success? ==> r.Ok?)
  {
    if csr.key.None? then
      Panic(NilDereference)   // &csr.Key.PublicKey
    else if csr.cert.None? || ca.cert.None? || ca.key.None? then
      Panic(NilDereference)   // x509.CreateCertificate dereferences template, parent and signer
    else
      match p.createCertificate(signRand, csr.cert.value, ca.cert.value, csr.key.value.publicKey, ca.key.value)
      case Failure(e) => Panic(e)
      case Success(der) =>
        Ok(Cert(certPem := Some(ArmorCertificate(p, der)),
                keyPem := Some(ArmorRsaKey(p, csr.key.value)),
                cert := csr.cert, key := csr.key))
  }
}

=== FILE: csr.dfy ===
/** csr/csr.go: the unsigned leaf template and its freshly generated key. */
module Csr {
  import opened Base
  import opened X509
  import opened Primitives
  import opened Types

  /** The placeholder subject key identifier every leaf carries. */
  const LeafSubjectKeyId: Bytes := [1, 2, 3, 4, 5, 6]

  /** The leaf template CreateCSR fills in: an end entity for both TLS
      purposes, valid from `start` for `duration`, naming exactly the given
      DNS names and IP addresses. The serial number and subject key identifier
      are constants, so two leaves of one CA share their (issuer, serial) pair,
      which section 4.1.2.2 of RFC 5280 requires to be unique. */
  function LeafTemplate(subject: Name, sansDns: seq<string>, sansIp: seq<IP>,
                        start: Time, duration: Duration): (t: Certificate)
    ensures IsEndEntityProfile(t) && !t.basicConstraintsValid
    ensures t.keyUsage == {DigitalSignature}
    ensures t.extKeyUsage == TlsExtKeyUsage
    ensures ValidFor(t, start, duration)
    ensures t.notBefore < t.notAfter <==> duration > 0
    ensures t.subject == subject
    ensures t.dnsNames == sansDns && t.ipAddresses == sansIp
    ensures t.serialNumber == FixedSerial && t.subjectKeyId == LeafSubjectKeyId
    ensures t.issuer == EmptyName && t.publicKey.None?
  {
    Certificate(
      serialNumber := FixedSerial,
      subject := subject,
      issuer := EmptyName,
      notBefore := start,
      notAfter := start + duration,
      keyUsage := {DigitalSignature},
      extKeyUsage := TlsExtKeyUsage,
      basicConstraintsValid := false,
      isCA := false,
      subjectKeyId := LeafSubjectKeyId,
      dnsNames := sansDns,
      ipAddresses := sansIp,
      publicKey := None)
  }

  /** CreateCSR: a new 4096-bit key with the leaf template. Nothing is signed
      or armored; a key-generation failure panics. */
  function CreateCSR(p: Primitives, keyRand: Entropy, subject: Name, sansDns: seq<string>,
                     sansIp: seq<IP>, start: Time, duration: Duration): (r: Outcome<Cert>)
    ensures r.Ok? || r.Panic?
    ensures r.Ok? <==> p.generateKey(keyRand, RsaKeyBits).Success?
    ensures p.generateKey(keyRand, RsaKeyBits).Failure? ==> r == Panic(p.generateKey(keyRand, RsaKeyBits).error)
    ensures r.Ok? ==> HasCertAndKey(r.value) && r.value.certPem.None? && r.value.keyPem.None?
    ensures r.Ok? ==> p.generateKey(keyRand, RsaKeyBits) == Success(r.value.key.value)
    ensures r.Ok? ==> r.value.cert == Some(LeafTemplate(subject, sansDns, sansIp, start, duration))
  {
    match p.generateKey(keyRand, RsaKeyBits)
    case Failure(e) => Panic(e)
    case Success(key) =>
      Ok(Cert(certPem := None, keyPem := None,
              cert := Some(LeafTemplate(subject, sansDns, sansIp, start, duration)),
              key := Some(key)))
  }
}

=== FILE: lifecycle.dfy ===
/** How the operations fit together over time: what is written by CreateCa and
    Sign reloads to the same key, and a leaf issued from reloaded CA files names
    that CA as its issuer. Each lemma names the standard-library behaviour it
    relies on as a hypothesis. */
module Lifecycle {
  import opened Base
  import opened X509
  import opened Primitives
  import opened Types
  import opened Loader
  import Ca
  import Utils

  /** The certificate in the first block of armored bytes, when that block is
      labelled "CERTIFICATE" and parses. */
  function ReadCertificate(p: Primitives, pem: Bytes): Option<Certificate> {
    match p.pemDecode(pem)
    case None => None
    case Some(b) => if b.blockType == CertificateLabel then p.parseCertificate(b.bytes).ToOption() else None
  }

  /** Whole-second durations survive the truncation of both validity bounds. */
  lemma WholeSecondShift(t: Time, d: Duration)
    requires d % NanosPerSecond == 0
    ensures TruncateToSecond(t + d) == TruncateToSecond(t) + d
  {
    var k := d / NanosPerSecond;
    assert d == k * NanosPerSecond;
    assert (t + d) / NanosPerSecond == t / NanosPerSecond + k;
  }

  /** A certificate and key armored the way CreateCa and Sign armor them reload,
      with no password, to the same key. The reloaded CertPem is byte-for-byte
      the file, while the reloaded KeyPem is the bare PKCS#1 encoding rather than
      the armored file. Both loaders agree when the certificate parses. */
  lemma ArmoredBundleReloads(p: Primitives, fs: FileSystem, keyPath: string, certPath: string,
                             der: Bytes, key: PrivateKey)
    requires PemRoundTrip(p) && Pkcs1RoundTrip(p)
    requires GeneratedKey(p, key)
    requires certPath in fs && fs[certPath] == ArmorCertificate(p, der)
    requires keyPath in fs && fs[keyPath] == ArmorRsaKey(p, key)
    ensures var r := LoadCertFromFile(p, fs, keyPath, "", certPath);
      && r.Ok?
      && r.value.certPem == Some(fs[certPath])
      && r.value.key == Some(key)
      && r.value.keyPem == Some(p.marshalPkcs1(key))
      && r.value.cert == p.parseCertificate(der).ToOption()
    ensures p.parseCertificate(der).Success? ==>
      LoadCertFromFileChecked(p, fs, keyPath, "", certPath) == LoadCertFromFile(p, fs, keyPath, "", certPath)
  {
    var certBlock := Block(CertificateLabel, map[], der);
    var keyBlock := Block(RsaPrivateKeyLabel, map[], p.marshalPkcs1(key));
    assert p.pemDecode(fs[certPath]) == Some(certBlock);
    assert p.pemDecode(fs[keyPath]) == Some(keyBlock);
    assert p.parsePkcs1(p.marshalPkcs1(key)) == Success(key);
    assert LoadRsa(p, fs, keyPath, "") == Ok(LoadedKey(key, p.marshalPkcs1(key)));
  }

  /** Keys are written unencrypted, so a key file this repository wrote only
      reloads with the empty password: any other password sends the block to
      decryption, whose error comes back unchanged. */
  lemma WrittenKeysNeedEmptyPassword(p: Primitives, fs: FileSystem, keyPath: string, password: string,
                                     key: PrivateKey)
    requires PemRoundTrip(p) && DecryptNeedsDekInfo(p)
    requires keyPath in fs && fs[keyPath] == ArmorRsaKey(p, key)
    requires password != ""
    ensures var block := Block(RsaPrivateKeyLabel, map[], p.marshalPkcs1(key));
      LoadRsa(p, fs, keyPath, password) == Err(p.decryptPemBlock(block, password).error)
  {
    var block := Block(RsaPrivateKeyLabel, map[], p.marshalPkcs1(key));
    assert p.pemDecode(fs[keyPath]) == Some(block);
    assert p.decryptPemBlock(block, password).Failure?;
  }

  /** The files CreateCa produces reload, through either loader, as a root
      that names itself as issuer, certifies its own public key, keeps the CA
      role and validity, and holds the key that was generated. */
  lemma CaBundleReloads(p: Primitives, keyRand: Entropy, signRand: Entropy, subject: Name, start: Time,
                        duration: Duration, fs: FileSystem, keyPath: string, certPath: string)
    requires PemRoundTrip(p) && Pkcs1RoundTrip(p) && SignerPreservesContent(p)
    requires Ca.CreateCa(p, keyRand, signRand, subject, start, duration).Ok?
    requires var ca := Ca.CreateCa(p, keyRand, signRand, subject, start, duration).value;
      && certPath in fs && fs[certPath] == ca.certPem.value
      && keyPath in fs && fs[keyPath] == ca.keyPem.value
    ensures var ca := Ca.CreateCa(p, keyRand, signRand, subject, start, duration).value;
      var r := LoadCertFromFile(p, fs, keyPath, "", certPath);
      && r.Ok?
      && LoadCertFromFileChecked(p, fs, keyPath, "", certPath) == r
      && r.value.key == ca.key
      && r.value.certPem == ca.certPem
      && var c := r.value.cert.value;
         && IsCaProfile(c)
         && c.subject == subject && c.issuer == subject
         && c.publicKey == Some(ca.key.value.publicKey)
         && c.notBefore == TruncateToSecond(start)
         && c.notAfter == TruncateToSecond(start + duration)
  {
    var ca := Ca.CreateCa(p, keyRand, signRand, subject, start, duration).value;
    var key := ca.key.value;
    var t := Ca.CaTemplate(subject, start, duration);
    var der := p.createCertificate(signRand, t, t, key.publicKey, key).value;
    ArmoredBundleReloads(p, fs, keyPath, certPath, der, key);
  }

  /** A leaf issued from the files CreateCa wrote, identically by both
      compositions: the armored leaf reads back as an end entity for the
      requested name, DNS names and key, issued by the root's subject, signed
      by the key CreateCa generated, and valid for exactly the requested
      whole-second duration. */
  lemma LeafFromReloadedCa(p: Primitives, caKeyRand: Entropy, caSignRand: Entropy, rootSubject: Name,
                           caStart: Time, caDuration: Duration, fs: FileSystem, caKeyPath: string,
                           caCertPath: string, keyRand: Entropy, signRand: Entropy, now: Time, cn: string,
                           duration: Duration, sansDns: seq<string>, sansIp: seq<IP>)
    requires PemRoundTrip(p) && Pkcs1RoundTrip(p) && SignerPreservesContent(p)
    requires Ca.CreateCa(p, caKeyRand, caSignRand, rootSubject, caStart, caDuration).Ok?
    requires var ca := Ca.CreateCa(p, caKeyRand, caSignRand, rootSubject, caStart, caDuration).value;
      && caCertPath in fs && fs[caCertPath] == ca.certPem.value
      && caKeyPath in fs && fs[caKeyPath] == ca.keyPem.value
    requires Utils.CreateCertFromCAFile(p, fs, keyRand, signRand, now, caKeyPath, caCertPath, cn,
                                        duration, sansDns, sansIp).Ok?
    ensures var ca := Ca.CreateCa(p, caKeyRand, caSignRand, rootSubject, caStart, caDuration).value;
      var leaf := Utils.CreateCertFromCAFile(p, fs, keyRand, signRand, now, caKeyPath, caCertPath, cn,
                                             duration, sansDns, sansIp).value;
      var loaded := LoadCertFromFile(p, fs, caKeyPath, "", caCertPath).value;
      var c := ReadCertificate(p, leaf.certPem.value);
      && Utils.CreateCertFromCAFileChecked(p, fs, keyRand, signRand, now, caKeyPath, caCertPath, cn,
                                           duration, sansDns, sansIp) == Utils.CreateCertFromCAFile(
                                             p, fs, keyRand, signRand, now, caKeyPath, caCertPath, cn,
                                             duration, sansDns, sansIp)
      && SignedAndArmored(p, signRand, leaf.certPem.value, leaf.cert.value, loaded.cert.value,
                          leaf.key.value.publicKey, ca.key.value)
      && c.Some?
      && IsEndEntityProfile(c.value)
      && c.value.issuer == rootSubject
      && c.value.subject == CommonNameOnly(cn)
      && c.value.dnsNames == sansDns
      && c.value.publicKey == Some(leaf.key.value.publicKey)
      && (duration % NanosPerSecond == 0 ==> c.value.notAfter - c.value.notBefore == duration)
  {
    CaBundleReloads(p, caKeyRand, caSignRand, rootSubject, caStart, caDuration, fs, caKeyPath, caCertPath);
    var leaf := Utils.CreateCertFromCAFile(p, fs, keyRand, signRand, now, caKeyPath, caCertPath, cn,
                                           duration, sansDns, sansIp).value;
    var loaded := LoadCertFromFile(p, fs, caKeyPath, "", caCertPath).value;
    Utils.CheckedIssueAgreesWithAsWritten(p, fs, keyRand, signRand, now, caKeyPath, caCertPath, cn,
                                          duration, sansDns, sansIp);
    var t := leaf.cert.value;
    var der := p.createCertificate(signRand, t, loaded.cert.value, leaf.key.value.publicKey, loaded.key.value).value;
    assert p.pemDecode(leaf.certPem.value) == Some(Block(CertificateLabel, map[], der));
    if duration % NanosPerSecond == 0 {
      WholeSecondShift(now, duration);
    }
  }
}

=== FILE: loader.dfy ===
/** utils/loader.go: reloading a certificate and its RSA key from files, as
    written, and a corrected loader that returns errors where the original
    panics or swallows them. */
module Loader {
  import opened Base
  import opened X509
  import opened Primitives
  import opened Types
  import Ca

  const WrongKeyType := ErrorString("RSA private key is of the wrong type")

  /** What loadRsa hands back: the parsed key and the bytes it was parsed
      from (decrypted when a password was given, never re-armored). */
  datatype LoadedKey = LoadedKey(key: PrivateKey, der: Bytes)

  /** The first PEM block of a readable file, if there is one. */
  function FirstBlock(p: Primitives, fs: FileSystem, path: string): Option<Block> {
    if path in fs then p.pemDecode(fs[path]) else None
  }

  /** The payload of a key block: as stored when the password is empty,
      otherwise its RFC 1423 decryption. */
  function KeyBytes(p: Primitives, keyBlock: Block, password: string): Result<Bytes> {
    if password != "" then p.decryptPemBlock(keyBlock, password) else Success(keyBlock.bytes)
  }

  /** loadRsa as written. A file with no PEM block panics on the nil block. */
  function LoadRsa(p: Primitives, fs: FileSystem, keyPath: string, password: string): (r: Outcome<LoadedKey>)
    ensures !r.Exit?
    ensures keyPath !in fs ==> r == Err(PathError("open", keyPath))
    ensures keyPath in fs && p.pemDecode(fs[keyPath]).None? ==> r == Panic(NilDereference)
    ensures FirstBlock(p, fs, keyPath).Some? && FirstBlock(p, fs, keyPath).value.blockType != RsaPrivateKeyLabel
            ==> r == Err(WrongKeyType)
    ensures FirstBlock(p, fs, keyPath).Some? && FirstBlock(p, fs, keyPath).value.blockType == RsaPrivateKeyLabel ==>
      var payload := KeyBytes(p, FirstBlock(p, fs, keyPath).value, password);
      && (payload.Failure? ==> r == Err(payload.error))
      && (payload.Success? && p.parsePkcs1(payload.value).Failure? ==> r == Err(p.parsePkcs1(payload.value).error))
      && (payload.Success? && p.parsePkcs1(payload.value).Success? ==>
            r == Ok(LoadedKey(p.parsePkcs1(payload.value).value, payload.value)))
    ensures r.Ok? ==>
      FirstBlock(p, fs, keyPath).Some? && FirstBlock(p, fs, keyPath).value.blockType == RsaPrivateKeyLabel
    ensures r.Ok? ==> p.parsePkcs1(r.value.der) == Success(r.value.key)
    ensures r.Ok? && password == "" ==> r.value.der == FirstBlock(p, fs, keyPath).value.bytes
    ensures r.Ok? && password != "" ==>
      p.decryptPemBlock(FirstBlock(p, fs, keyPath).value, password) == Success(r.value.der)
  {
    var keyBytes :- ReadFile(fs, keyPath).ToOutcome();
    match p.pemDecode(keyBytes)
    case None => Panic(NilDereference)   // keyBlock.Type on a nil block
    case Some(keyBlock) =>
      if keyBlock.blockType != RsaPrivateKeyLabel then Err(WrongKeyType)
      else
        var der :- KeyBytes(p, keyBlock, password).ToOutcome();
        var key :- p.parsePkcs1(der).ToOutcome();
        Ok(LoadedKey(key, der))
  }

  /** LoadCertFromFile as written. The certificate file is read and its first
      block re-armored before the key file is looked at; the certificate parse
      error is overwritten by the key's result, and a file with no PEM block
      panics on the nil block. */
  function LoadCertFromFile(p: Primitives, fs: FileSystem, keyPath: string, password: string,
                            certPath: string): (r: Outcome<Cert>)
    ensures !r.Exit?
    ensures certPath !in fs ==> r == Err(PathError("open", certPath))
    ensures certPath in fs && p.pemDecode(fs[certPath]).None? ==> r == Panic(NilDereference)
    ensures FirstBlock(p, fs, certPath).Some? && !LoadRsa(p, fs, keyPath, password).Ok? ==>
      r == LoadRsa(p, fs, keyPath, password).PropagateFailure()
    ensures r.Ok? <==> FirstBlock(p, fs, certPath).Some? && LoadRsa(p, fs, keyPath, password).Ok?
    ensures r.Ok? ==> r.value.certPem == Some(p.pemEncode(FirstBlock(p, fs, certPath).value))
    ensures r.Ok? ==> r.value.cert == p.parseCertificate(FirstBlock(p, fs, certPath).value.bytes).ToOption()
    ensures r.Ok? ==> r.value.key == Some(LoadRsa(p, fs, keyPath, password).value.key)
    ensures r.Ok? ==> r.value.keyPem == Some(LoadRsa(p, fs, keyPath, password).value.der)
  {
    var certBytes :- ReadFile(fs, certPath).ToOutcome();
    match p.pemDecode(certBytes)
    case None => Panic(NilDereference)   // certBlock.Bytes on a nil block
    case Some(certBlock) =>
      var cert := p.parseCertificate(certBlock.bytes);
      var certPem := p.pemEncode(certBlock);
      var loaded :- LoadRsa(p, fs, keyPath, password);
      Ok(Cert(certPem := Some(certPem), keyPem := Some(loaded.der),
              cert := cert.ToOption(), key := Some(loaded.key)))
  }

  /** A readable key file holding no PEM block makes loadRsa panic instead of
      returning an error. */
  lemma KeyWithoutPemBlockPanics(p: Primitives, fs: FileSystem, keyPath: string, password: string)
    requires keyPath in fs && p.pemDecode(fs[keyPath]).None?
    ensures LoadRsa(p, fs, keyPath, password).Panic?
  {
  }

  /** A readable certificate file holding no PEM block makes LoadCertFromFile
      panic instead of returning an error, whatever the key file holds. */
  lemma CertWithoutPemBlockPanics(p: Primitives, fs: FileSystem, keyPath: string, password: string, certPath: string)
    requires certPath in fs && p.pemDecode(fs[certPath]).None?
    ensures LoadCertFromFile(p, fs, keyPath, password, certPath).Panic?
  {
  }

  /** A certificate block that does not parse is reported as success once the
      key loads: the record has no certificate object, and signing with it as
      the CA panics. */
  lemma CertParseErrorSwallowed(p: Primitives, fs: FileSystem, keyPath: string, password: string,
                                certPath: string, signRand: Entropy, csr: Cert)
    requires FirstBlock(p, fs, certPath).Some?
    requires p.parseCertificate(FirstBlock(p, fs, certPath).value.bytes).Failure?
    requires LoadRsa(p, fs, keyPath, password).Ok?
    ensures LoadCertFromFile(p, fs, keyPath, password, certPath).Ok?
    ensures LoadCertFromFile(p, fs, keyPath, password, certPath).value.cert.None?
    ensures Ca.Sign(p, signRand, LoadCertFromFile(p, fs, keyPath, password, certPath).value, csr)
            == Panic(NilDereference)
  {
  }

  const NoKeyBlock := ErrorString("failed to decode PEM block containing the private key")
  const NoCertBlock := ErrorString("failed to decode PEM block containing the certificate")

  /** loadRsa with the missing-block case returned as an error. */
  function LoadRsaChecked(p: Primitives, fs: FileSystem, keyPath: string, password: string): (r: Outcome<LoadedKey>)
    ensures r.Ok? || r.Err?
    ensures keyPath in fs && p.pemDecode(fs[keyPath]).None? ==> r == Err(NoKeyBlock)
    ensures !LoadRsa(p, fs, keyPath, password).Panic? ==> r == LoadRsa(p, fs, keyPath, password)
  {
    var keyBytes :- ReadFile(fs, keyPath).ToOutcome();
    match p.pemDecode(keyBytes)
    case None => Err(NoKeyBlock)
    case Some(keyBlock) =>
      if keyBlock.blockType != RsaPrivateKeyLabel then Err(WrongKeyType)
      else
        var der :- KeyBytes(p, keyBlock, password).ToOutcome();
        var key :- p.parsePkcs1(der).ToOutcome();
        Ok(LoadedKey(key, der))
  }

  /** LoadCertFromFile as intended: a missing block or a certificate that does
      not parse is returned as an error before the key file is read, so a
      successful load always carries both objects. */
  function LoadCertFromFileChecked(p: Primitives, fs: FileSystem, keyPath: string, password: string,
                                   certPath: string): (r: Outcome<Cert>)
    ensures r.Ok? || r.Err?
    ensures r.Ok? <==> && FirstBlock(p, fs, certPath).Some?
                       && p.parseCertificate(FirstBlock(p, fs, certPath).value.bytes).Success?
                       && LoadRsaChecked(p, fs, keyPath, password).Ok?
    ensures r.Ok? ==> IsComplete(r.value)
    ensures certPath !in fs ==> r == Err(PathError("open", certPath))
    ensures certPath in fs && p.pemDecode(fs[certPath]).None? ==> r == Err(NoCertBlock)
    ensures FirstBlock(p, fs, certPath).Some? && p.parseCertificate(FirstBlock(p, fs, certPath).value.bytes).Failure?
            ==> r == Err(p.parseCertificate(FirstBlock(p, fs, certPath).value.bytes).error)
    ensures FirstBlock(p, fs, certPath).Some? && p.parseCertificate(FirstBlock(p, fs, certPath).value.bytes).Success?
            ==> && (LoadRsa(p, fs, keyPath, password).Panic? ==> r == Err(NoKeyBlock))
                && (!LoadRsa(p, fs, keyPath, password).Panic? ==>
                      r == LoadCertFromFile(p, fs, keyPath, password, certPath))
  {
    var certBytes :- ReadFile(fs, certPath).ToOutcome();
    match p.pemDecode(certBytes)
    case None => Err(NoCertBlock)
    case Some(certBlock) =>
      var cert :- p.parseCertificate(certBlock.bytes).ToOutcome();
      var certPem := p.pemEncode(certBlock);
      var loaded :- LoadRsaChecked(p, fs, keyPath, password);
      Ok(Cert(certPem := Some(certPem), keyPem := Some(loaded.der),
              cert := Some(cert), key := Some(loaded.key)))
  }

  /** Wherever the original loader returns a record with a certificate, the
      corrected loader returns the same record; wherever the original returns
      an error with a parsable certificate, the corrected one returns the
      same error. */
  lemma CheckedAgreesWithAsWritten(p: Primitives, fs: FileSystem, keyPath: string, password: string, certPath: string)
    ensures var r := LoadCertFromFile(p, fs, keyPath, password, certPath);
      r.Ok? && r.value.cert.Some? ==> LoadCertFromFileChecked(p, fs, keyPath, password, certPath) == r
    ensures var r := LoadCertFromFile(p, fs, keyPath, password, certPath);
      r.Err? && (FirstBlock(p, fs, certPath).None? ||
                 p.parseCertificate(FirstBlock(p, fs, certPath).value.bytes).Success?)
      ==> LoadCertFromFileChecked(p, fs, keyPath, password, certPath) == r
  {
  }

  /** A key file whose first block is labelled "CERTIFICATE" is refused as the
      wrong key type, before any decryption or parsing is tried. */
  lemma CertificateAsKeyIsWrongType(p: Primitives, fs: FileSystem, keyPath: string, password: string, der: Bytes)
    requires PemRoundTrip(p)
    requires keyPath in fs && fs[keyPath] == ArmorCertificate(p, der)
    ensures LoadRsa(p, fs, keyPath, password) == Err(WrongKeyType)
    ensures LoadRsaChecked(p, fs, keyPath, password) == Err(WrongKeyType)
  {
    assert p.pemDecode(fs[keyPath]) == Some(Block(CertificateLabel, map[], der));
  }
}

=== FILE: primitives.dfy ===
/** The standard-library calls the core makes, as uninterpreted functions held
    in one record that every operation receives. The model never looks inside
    them; what a lemma needs to know about them is stated as a named hypothesis
    at the end of this module. */
module Primitives {
  import opened Base
  import opened X509
  import opened Tls

  /** pem.Block (RFC 7468 framing): the type label on the BEGIN/END lines, the
      optional RFC 1423 headers, and the decoded payload. */
  datatype Block = Block(blockType: string, headers: map<string, string>, bytes: Bytes)

  const CertificateLabel := "CERTIFICATE"
  const RsaPrivateKeyLabel := "RSA PRIVATE KEY"

  datatype Primitives = Primitives(
    /** rsa.GenerateKey(rand.Reader, bits) */
    generateKey: (Entropy, int) -> Result<PrivateKey>,
    /** x509.CreateCertificate(rand.Reader, template, parent, pub, priv): the DER of the signed certificate */
    createCertificate: (Entropy, Certificate, Certificate, PublicKey, PrivateKey) -> Result<Bytes>,
    /** x509.MarshalPKCS1PrivateKey */
    marshalPkcs1: PrivateKey -> Bytes,
    /** x509.ParsePKCS1PrivateKey */
    parsePkcs1: Bytes -> Result<PrivateKey>,
    /** x509.ParseCertificate */
    parseCertificate: Bytes -> Result<Certificate>,
    /** pem.Encode into a fresh buffer */
    pemEncode: Block -> Bytes,
    /** pem.Decode: the first block, or nil when there is none (the rest is never used here) */
    pemDecode: Bytes -> Option<Block>,
    /** x509.DecryptPEMBlock (legacy RFC 1423 encryption) */
    decryptPemBlock: (Block, string) -> Result<Bytes>,
    /** tls.X509KeyPair over the two PEM inputs */
    x509KeyPair: (Bytes, Bytes) -> Result<TlsCertificate>,
    /** CertPool.AppendCertsFromPEM: the grown pool and whether any certificate was added */
    appendCertsFromPem: (CertPool, Bytes) -> (CertPool, bool))

  /** A DER certificate armored under the "CERTIFICATE" label, without headers. */
  function ArmorCertificate(p: Primitives, der: Bytes): Bytes {
    p.pemEncode(Block(CertificateLabel, map[], der))
  }

  /** A key's PKCS#1 encoding armored under the "RSA PRIVATE KEY" label, without headers. */
  function ArmorRsaKey(p: Primitives, key: PrivateKey): Bytes {
    p.pemEncode(Block(RsaPrivateKeyLabel, map[], p.marshalPkcs1(key)))
  }

  /** `pem` is the armored result of signing `template` under `parent` with
      `signer`, certifying `pub`, using the random bytes `rand`. */
  predicate SignedAndArmored(p: Primitives, rand: Entropy, pem: Bytes, template: Certificate,
                             parent: Certificate, pub: PublicKey, signer: PrivateKey)
  {
    var signed := p.createCertificate(rand, template, parent, pub, signer);
    signed.Success? && pem == ArmorCertificate(p, signed.value)
  }

  /** `k` is a key rsa.GenerateKey can produce at the size the repository
      uses: a well-formed key whose primes multiply to its modulus. */
  ghost predicate GeneratedKey(p: Primitives, k: PrivateKey) {
    exists rand: Entropy :: p.generateKey(rand, RsaKeyBits) == Success(k)
  }

  /** Hypothesis: decoding an encoded header-less block under one of the two
      labels the repository writes gives the block back. (An arbitrary label,
      one holding a line break say, need not survive.) */
  ghost predicate PemRoundTrip(p: Primitives) {
    forall b: Block | b.headers == map[] && (b.blockType == CertificateLabel || b.blockType == RsaPrivateKeyLabel) ::
      p.pemDecode(p.pemEncode(b)) == Some(b)
  }

  /** Hypothesis: PKCS#1 parsing inverts PKCS#1 marshalling for generated
      keys. (Parsing validates the key, so a malformed one need not survive.) */
  ghost predicate Pkcs1RoundTrip(p: Primitives) {
    forall k: PrivateKey | GeneratedKey(p, k) :: p.parsePkcs1(p.marshalPkcs1(k)) == Success(k)
  }

  /** Hypothesis: RFC 1423 decryption refuses a block that has no DEK-Info
      header, that is, a block that was never encrypted. */
  ghost predicate DecryptNeedsDekInfo(p: Primitives) {
    forall b: Block, password: string | "DEK-Info" !in b.headers :: p.decryptPemBlock(b, password).Failure?
  }

  /** What parsing a certificate signed from `template` under `parent` for
      `pub` shows: the template's content, the parent's subject as issuer,
      `pub` as the key, and both validity bounds cut to whole seconds. Basic
      constraints are only encoded when marked valid. */
  predicate Certifies(c: Certificate, template: Certificate, parent: Certificate, pub: PublicKey) {
    && c.serialNumber == template.serialNumber
    && c.subject == template.subject
    && c.issuer == parent.subject
    && c.notBefore == TruncateToSecond(template.notBefore)
    && c.notAfter == TruncateToSecond(template.notAfter)
    && c.keyUsage == template.keyUsage
    && c.extKeyUsage == template.extKeyUsage
    && c.basicConstraintsValid == template.basicConstraintsValid
    && c.isCA == (template.basicConstraintsValid && template.isCA)
    && c.dnsNames == template.dnsNames
    && c.publicKey == Some(pub)
  }

  /** Hypothesis: whatever x509.CreateCertificate signs for the public half
      of a generated key, x509.ParseCertificate reads back with the content it
      was given. (A degenerate public key, a zero modulus say, is refused by
      the parser and is not covered.) */
  ghost predicate SignerPreservesContent(p: Primitives) {
    forall rand: Entropy, t: Certificate, parent: Certificate, k: PrivateKey, signer: PrivateKey
      | GeneratedKey(p, k) && p.createCertificate(rand, t, parent, k.publicKey, signer).Success? ::
      var c := p.parseCertificate(p.createCertificate(rand, t, parent, k.publicKey, signer).value);
      c.Success? && Certifies(c.value, t, parent, k.publicKey)
  }
}

=== FILE: tls.dfy ===
/** The fields of crypto/tls's Config that the trust assembler sets, and the
    gRPC transport credentials that wrap a client config. */
module Tls {
  import opened Base
  import opened X509

  /** tls.ClientAuthType; the zero value is NoClientCert. */
  datatype ClientAuthType =
    | NoClientCert
    | RequestClientCert
    | RequireAnyClientCert
    | VerifyClientCertIfGiven
    | RequireAndVerifyClientCert

  /** tls.Certificate: the DER chain and the private key it was loaded with. */
  datatype TlsCertificate = TlsCertificate(chain: seq<Bytes>, privateKey: Bytes)

  /** tls.Config; an absent pool is a nil *x509.CertPool. */
  datatype TlsConfig = TlsConfig(
    certificates: seq<TlsCertificate>,
    clientAuth: ClientAuthType,
    clientCAs: Option<CertPool>,
    rootCAs: Option<CertPool>)

  /** credentials.NewTLS: gRPC transport credentials over a TLS config. */
  datatype TransportCredentials = TransportCredentials(config: TlsConfig)

  /** The server asks the peer for a certificate during the handshake. */
  predicate RequestsClientCertificate(c: TlsConfig) {
    c.clientAuth != NoClientCert
  }
}

=== FILE: types.dfy ===
/** types.Cert, the record every operation of the core passes around. */
module Types {
  import opened Base
  import opened X509

  /** A certificate with its key, in armored and in object form. Each field is
      a pointer in Go's types.Cert and may be nil (None). */
  datatype Cert = Cert(
    certPem: Option<Bytes>,
    keyPem: Option<Bytes>,
    cert: Option<Certificate>,
    key: Option<PrivateKey>)

  /** Both objects are present, so the record can sign or be signed. */
  predicate HasCertAndKey(c: Cert) {
    c.cert.Some? && c.key.Some?
  }

  /** Every field is present. */
  predicate IsComplete(c: Cert) {
    HasCertAndKey(c) && c.certPem.Some? && c.keyPem.Some?
  }
}

=== FILE: utils.dfy ===
/** utils/cert.go: issuing a leaf from CA files, and assembling the server and
    client TLS configurations. */
module Utils {
  import opened Base
  import opened X509
  import opened Tls
  import opened Primitives
  import opened Types
  import opened Loader
  import Ca
  import Csr

  /** CreateCertFromCAFile as written, up to the point where files are written:
      reload the CA with no password, build a CSR for a Common-Name-only
      subject valid from `now`, and sign it with the reloaded CA. A CA file
      without a PEM block panics in the loader. A CA certificate that does not
      parse is loaded as a nil certificate: a key is still generated, and Sign
      then panics on the nil certificate. */
  function CreateCertFromCAFile(p: Primitives, fs: FileSystem, keyRand: Entropy, signRand: Entropy, now: Time,
                                caKeyPath: string, caCertPath: string, cn: string, duration: Duration,
                                sansDns: seq<string>, sansIp: seq<IP>): (r: Outcome<Cert>)
    ensures !r.Exit?
    ensures var ca := LoadCertFromFile(p, fs, caKeyPath, "", caCertPath);
      !ca.Ok? ==> r == ca
    ensures var ca := LoadCertFromFile(p, fs, caKeyPath, "", caCertPath);
      var key := p.generateKey(keyRand, RsaKeyBits);
      ca.Ok? ==>
        && (key.Failure? ==> r == Panic(key.error))
        && (key.Success? && ca.value.cert.None? ==> r == Panic(NilDereference))
        && (key.Success? && ca.value.cert.Some? ==>
              var leaf := Csr.LeafTemplate(CommonNameOnly(cn), sansDns, sansIp, now, duration);
              var signed := p.createCertificate(signRand, leaf, ca.value.cert.value, key.value.publicKey,
                                                ca.value.key.value);
              && (signed.Failure? ==> r == Panic(signed.error))
              && (signed.Success? ==> r.Ok?))
    ensures r.Ok? ==> IsComplete(r.value)
    ensures r.Ok? ==> r.value.keyPem == Some(ArmorRsaKey(p, r.value.key.value))
    ensures r.Ok? ==> r.value.cert == Some(Csr.LeafTemplate(CommonNameOnly(cn), sansDns, sansIp, now, duration))
    ensures r.Ok? ==> p.generateKey(keyRand, RsaKeyBits) == Success(r.value.key.value)
    ensures r.Ok? ==>
      var ca := LoadCertFromFile(p, fs, caKeyPath, "", caCertPath);
      && ca.Ok? && ca.value.cert.Some?
      && SignedAndArmored(p, signRand, r.value.certPem.value, r.value.cert.value, ca.value.cert.value,
                          r.value.key.value.publicKey, ca.value.key.value)
  {
    var caCert :- LoadCertFromFile(p, fs, caKeyPath, "", caCertPath);
    var csr :- Csr.CreateCSR(p, keyRand, CommonNameOnly(cn), sansDns, sansIp, now, duration);
    Ca.Sign(p, signRand, caCert, csr)
  }

  /** CreateCertFromCAFile over the corrected loader: every loading failure is
      returned as an error before any key is generated, and a panic means key
      generation or signing failed. */
  function CreateCertFromCAFileChecked(p: Primitives, fs: FileSystem, keyRand: Entropy, signRand: Entropy,
                                       now: Time, caKeyPath: string, caCertPath: string, cn: string,
                                       duration: Duration, sansDns: seq<string>, sansIp: seq<IP>)
    : (r: Outcome<Cert>)
    ensures !r.Exit?
    ensures LoadCertFromFileChecked(p, fs, caKeyPath, "", caCertPath).Err? ==>
      r == LoadCertFromFileChecked(p, fs, caKeyPath, "", caCertPath)
    ensures r.Err? ==> r == LoadCertFromFileChecked(p, fs, caKeyPath, "", caCertPath)
    ensures r.Ok? ==> LoadCertFromFileChecked(p, fs, caKeyPath, "", caCertPath).Ok?
    ensures r.Ok? ==> IsComplete(r.value)
    ensures r.Ok? ==> r.value.keyPem == Some(ArmorRsaKey(p, r.value.key.value))
    ensures r.Ok? ==> r.value.cert == Some(Csr.LeafTemplate(CommonNameOnly(cn), sansDns, sansIp, now, duration))
    ensures r.Ok? ==> p.generateKey(keyRand, RsaKeyBits) == Success(r.value.key.value)
    ensures r.Ok? ==>
      var ca := LoadCertFromFileChecked(p, fs, caKeyPath, "", caCertPath).value;
      SignedAndArmored(p, signRand, r.value.certPem.value, r.value.cert.value, ca.cert.value,
                       r.value.key.value.publicKey, ca.key.value)
    ensures LoadCertFromFileChecked(p, fs, caKeyPath, "", caCertPath).Ok? ==>
      var ca := LoadCertFromFileChecked(p, fs, caKeyPath, "", caCertPath).value;
      var key := p.generateKey(keyRand, RsaKeyBits);
      var leaf := Csr.LeafTemplate(CommonNameOnly(cn), sansDns, sansIp, now, duration);
      && (key.Failure? ==> r == Panic(key.error))
      && (key.Success? ==>
            var signed := p.createCertificate(signRand, leaf, ca.cert.value, key.value.publicKey, ca.key.value);
            && (signed.Failure? ==> r == Panic(signed.error))
            && (signed.Success? ==> r.Ok?))
  {
    var caCert :- LoadCertFromFileChecked(p, fs, caKeyPath, "", caCertPath);
    var csr :- Csr.CreateCSR(p, keyRand, CommonNameOnly(cn), sansDns, sansIp, now, duration);
    Ca.Sign(p, signRand, caCert, csr)
  }

  /** The two compositions differ only where the loader is defective: a leaf
      the original issues is issued identically by the corrected one, and the
      two agree whenever the CA certificate file is missing or holds a block
      that parses and the CA key file does not make loadRsa panic. */
  lemma CheckedIssueAgreesWithAsWritten(p: Primitives, fs: FileSystem, keyRand: Entropy, signRand: Entropy,
                                        now: Time, caKeyPath: string, caCertPath: string, cn: string,
                                        duration: Duration, sansDns: seq<string>, sansIp: seq<IP>)
    ensures var r := CreateCertFromCAFile(p, fs, keyRand, signRand, now, caKeyPath, caCertPath, cn,
                                          duration, sansDns, sansIp);
      r.Ok? ==> CreateCertFromCAFileChecked(p, fs, keyRand, signRand, now, caKeyPath, caCertPath, cn,
                                            duration, sansDns, sansIp) == r
    ensures caCertPath !in fs
            || (&& FirstBlock(p, fs, caCertPath).Some?
                && p.parseCertificate(FirstBlock(p, fs, caCertPath).value.bytes).Success?
                && !LoadRsa(p, fs, caKeyPath, "").Panic?)
      ==> CreateCertFromCAFileChecked(p, fs, keyRand, signRand, now, caKeyPath, caCertPath, cn,
                                      duration, sansDns, sansIp)
          == CreateCertFromCAFile(p, fs, keyRand, signRand, now, caKeyPath, caCertPath, cn,
                                  duration, sansDns, sansIp)
  {
    CheckedAgreesWithAsWritten(p, fs, caKeyPath, "", caCertPath);
  }

  /** tls.LoadX509KeyPair: read the certificate file, then the key file, then
      parse the pair. */
  function LoadX509KeyPair(p: Primitives, fs: FileSystem, certFile: string, keyFile: string): Result<TlsCertificate> {
    var certPem :- ReadFile(fs, certFile);
    var keyPem :- ReadFile(fs, keyFile);
    p.x509KeyPair(certPem, keyPem)
  }

  /** Every path names a readable file. */
  predicate Readable(fs: FileSystem, paths: seq<string>) {
    forall i :: 0 <= i < |paths| ==> paths[i] in fs
  }

  /** `i` is the first unreadable path. */
  predicate FirstUnreadable(fs: FileSystem, paths: seq<string>, i: int) {
    0 <= i < |paths| && paths[i] !in fs && Readable(fs, paths[..i])
  }

  /** The contents of the named files, in order. */
  function Contents(fs: FileSystem, paths: seq<string>): seq<Bytes>
    requires Readable(fs, paths)
  {
    seq(|paths|, i requires 0 <= i < |paths| => fs[paths[i]])
  }

  /** The pool obtained by appending each PEM input to `start`, in order, with
      the "added anything" answers ignored. */
  function Accumulate(p: Primitives, start: CertPool, pems: seq<Bytes>): CertPool
    decreases |pems|
  {
    if |pems| == 0 then start
    else p.appendCertsFromPem(Accumulate(p, start, pems[..|pems| - 1]), pems[|pems| - 1]).0
  }

  /** Appending the files of `a` and then those of `b` builds the pool of
      `a + b`: the server's pool is a left-to-right pass over its CA list. */
  lemma {:induction false} AccumulateConcat(p: Primitives, start: CertPool, a: seq<Bytes>, b: seq<Bytes>)
    ensures Accumulate(p, start, a + b) == Accumulate(p, Accumulate(p, start, a), b)
    decreases |b|
  {
    if |b| == 0 {
      assert a + b == a;
    } else {
      var b' := b[..|b| - 1];
      assert (a + b)[..|a + b| - 1] == a + b';
      assert (a + b)[|a + b| - 1] == b[|b| - 1];
      AccumulateConcat(p, start, a, b');
    }
  }

  /** Listing more CA paths after some others grows the server's pool from
      where the shorter list left it: the pool for `a + b` is the pool for `a`
      with the files of `b` appended in order. */
  lemma ServerPoolExtends(p: Primitives, fs: FileSystem, a: seq<string>, b: seq<string>)
    requires Readable(fs, a + b)
    ensures Readable(fs, a) && Readable(fs, b)
    ensures Accumulate(p, EmptyCertPool, Contents(fs, a + b))
            == Accumulate(p, Accumulate(p, EmptyCertPool, Contents(fs, a)), Contents(fs, b))
  {
    forall i | 0 <= i < |a| ensures a[i] in fs {
      assert (a + b)[i] == a[i];
    }
    forall i | 0 <= i < |b| ensures b[i] in fs {
      assert (a + b)[|a| + i] == b[i];
    }
    assert Contents(fs, a + b) == Contents(fs, a) + Contents(fs, b);
    AccumulateConcat(p, EmptyCertPool, Contents(fs, a), Contents(fs, b));
  }

  /** The server's TLS configuration: its own key pair, and, when any CA path
      is given, mandatory verified client certificates against the pool of
      every CA file in order. An unreadable CA file ends the process; a CA file
      that adds nothing to the pool is passed over. */
  method BuildServerTlsConf(p: Primitives, fs: FileSystem, caPaths: seq<string>, certPath: string, keyPath: string)
    returns (r: Outcome<TlsConfig>)
    ensures !r.Panic?
    ensures LoadX509KeyPair(p, fs, certPath, keyPath).Failure? ==>
      r == Err(LoadX509KeyPair(p, fs, certPath, keyPath).error)
    ensures r.Err? ==> LoadX509KeyPair(p, fs, certPath, keyPath).Failure?
    ensures r.Exit? <==> LoadX509KeyPair(p, fs, certPath, keyPath).Success? && !Readable(fs, caPaths)
    ensures r.Exit? ==> exists i :: FirstUnreadable(fs, caPaths, i) && r.cause == PathError("open", caPaths[i])
    ensures r.Ok? ==> Readable(fs, caPaths)
    ensures r.Ok? ==> r.value.certificates == [LoadX509KeyPair(p, fs, certPath, keyPath).value]
    ensures r.Ok? ==> (RequestsClientCertificate(r.value) <==> |caPaths| > 0)
    ensures r.Ok? && |caPaths| == 0 ==> r.value.clientAuth == NoClientCert && r.value.clientCAs.None?
    ensures r.Ok? && |caPaths| > 0 ==> r.value.clientAuth == RequireAndVerifyClientCert
    ensures r.Ok? && |caPaths| > 0 ==> r.value.clientCAs == Some(Accumulate(p, EmptyCertPool, Contents(fs, caPaths)))
    ensures r.Ok? ==> r.value.rootCAs.None?
  {
    var serverCert := LoadX509KeyPair(p, fs, certPath, keyPath);
    if serverCert.Failure? {
      return Err(serverCert.error);
    }
    var config := TlsConfig([serverCert.value], NoClientCert, None, None);
    if |caPaths| > 0 {
      var pool := EmptyCertPool;
      var i := 0;
      while i < |caPaths|
        invariant 0 <= i <= |caPaths|
        invariant Readable(fs, caPaths[..i])
        invariant pool == Accumulate(p, EmptyCertPool, Contents(fs, caPaths[..i]))
      {
        var caCert := ReadFile(fs, caPaths[i]);
        if caCert.Failure? {
          assert FirstUnreadable(fs, caPaths, i);
          return Exit(caCert.error);
        }
        ghost var before := Contents(fs, caPaths[..i]);
        pool := p.appendCertsFromPem(pool, caCert.value).0;
        assert caPaths[..i + 1][..i] == caPaths[..i];
        assert Contents(fs, caPaths[..i + 1]) == before + [caCert.value];
        assert (before + [caCert.value])[..|before|] == before;
        i := i + 1;
      }
      assert caPaths[..i] == caPaths;
      config := config.(clientAuth := RequireAndVerifyClientCert, clientCAs := Some(pool));
    }
    return Ok(config);
  }

  const CannotAddCa := ErrorString("Cann't add ca")

  /** The gRPC client credentials: the client's own key pair, and a pool
      holding the one CA file's certificates as the roots it trusts. Failures
      are checked in order: key pair, CA file read, CA added to the pool. */
  function LoadKeyPair(p: Primitives, fs: FileSystem, certPath: string, keyPath: string, caPath: string)
    : (r: Outcome<TransportCredentials>)
    ensures r.Ok? || r.Err?
    ensures r.Ok? <==> && LoadX509KeyPair(p, fs, certPath, keyPath).Success?
                       && caPath in fs && p.appendCertsFromPem(EmptyCertPool, fs[caPath]).1
    ensures LoadX509KeyPair(p, fs, certPath, keyPath).Failure? ==>
      r == Err(LoadX509KeyPair(p, fs, certPath, keyPath).error)
    ensures LoadX509KeyPair(p, fs, certPath, keyPath).Success? && caPath !in fs ==> r == Err(PathError("open", caPath))
    ensures LoadX509KeyPair(p, fs, certPath, keyPath).Success? && caPath in fs ==>
      (r == Err(CannotAddCa) <==> !p.appendCertsFromPem(EmptyCertPool, fs[caPath]).1)
    ensures r.Ok? ==> caPath in fs && p.appendCertsFromPem(EmptyCertPool, fs[caPath]).1
    ensures r.Ok? ==> r.value.config.certificates == [LoadX509KeyPair(p, fs, certPath, keyPath).value]
    ensures r.Ok? ==> r.value.config.rootCAs == Some(p.appendCertsFromPem(EmptyCertPool, fs[caPath]).0)
    ensures r.Ok? ==> !RequestsClientCertificate(r.value.config) && r.value.config.clientCAs.None?
  {
    var certificate :- LoadX509KeyPair(p, fs, certPath, keyPath).ToOutcome();
    var ca :- ReadFile(fs, caPath).ToOutcome();
    var (capool, added) := p.appendCertsFromPem(EmptyCertPool, ca);
    if !added then Err(CannotAddCa)
    else Ok(TransportCredentials(TlsConfig([certificate], NoClientCert, None, Some(capool))))
  }

  /** A client trusting one CA file trusts exactly the pool a server builds
      from that same file alone. */
  lemma ClientTrustsServerPoolOfSameCa(p: Primitives, fs: FileSystem, certPath: string, keyPath: string, caPath: string)
    requires LoadKeyPair(p, fs, certPath, keyPath, caPath).Ok?
    ensures Readable(fs, [caPath])
    ensures LoadKeyPair(p, fs, certPath, keyPath, caPath).value.config.rootCAs
            == Some(Accumulate(p, EmptyCertPool, Contents(fs, [caPath])))
  {
    var pems := Contents(fs, [caPath]);
    assert pems == [fs[caPath]];
    assert pems[..0] == [];
  }
}

=== FILE: x509.dfy ===
/** The parts of crypto/x509 and crypto/rsa the core reads or writes: names,
    keys, the certificate record (used both as an unsigned template and as a
    parsed certificate) and the role profiles of RFC 5280. */
module X509 {
  import opened Base

  /** pkix.Name, reduced to the attribute lists the repository can set. */
  datatype Name = Name(
    country: seq<string>,
    organization: seq<string>,
    organizationalUnit: seq<string>,
    commonName: string)

  const EmptyName := Name([], [], [], "")

  /** A subject that carries only a Common Name, as the leaf commands build it. */
  function CommonNameOnly(cn: string): Name {
    Name([], [], [], cn)
  }

  /** The key-usage bits of section 4.2.1.3 of RFC 5280. Go keeps them in an int
      bitmask combined with `|`; the model keeps the set of bits that are on. */
  datatype KeyUsage =
    | DigitalSignature
    | ContentCommitment
    | KeyEncipherment
    | DataEncipherment
    | KeyAgreement
    | CertSign
    | CRLSign
    | EncipherOnly
    | DecipherOnly

  /** Extended key-usage purposes of section 4.2.1.12 of RFC 5280. */
  datatype ExtKeyUsage =
    | AnyExtKeyUsage
    | ServerAuth
    | ClientAuth
    | CodeSigning
    | EmailProtection
    | TimeStamping
    | OCSPSigning

  /** net.IP: the raw address bytes. */
  type IP = Bytes

  datatype PublicKey = PublicKey(n: nat, e: nat)

  /** rsa.PrivateKey, which embeds its public half. */
  datatype PrivateKey = PrivateKey(publicKey: PublicKey, d: nat, primes: seq<nat>)

  /** x509.Certificate. As a template the issuer is left empty and the public
      key absent; a parsed certificate has both. */
  datatype Certificate = Certificate(
    serialNumber: int,
    subject: Name,
    issuer: Name,
    notBefore: Time,
    notAfter: Time,
    keyUsage: set<KeyUsage>,
    extKeyUsage: seq<ExtKeyUsage>,
    basicConstraintsValid: bool,
    isCA: bool,
    subjectKeyId: Bytes,
    dnsNames: seq<string>,
    ipAddresses: seq<IP>,
    publicKey: Option<PublicKey>)

  /** x509.CertPool: the trusted certificates, in the order they were added. */
  datatype CertPool = CertPool(certificates: seq<Certificate>)

  /** x509.NewCertPool() */
  const EmptyCertPool := CertPool([])

  /** Fixed choices of this repository: the RSA modulus size and the serial
      number stamped on every certificate it issues. */
  const RsaKeyBits := 4096
  const FixedSerial := 2021

  /** Both TLS purposes, client first, as every certificate here declares them. */
  const TlsExtKeyUsage := [ClientAuth, ServerAuth]

  /** A certificate authority per sections 4.2.1.9 and 4.2.1.3 of RFC 5280:
      basic constraints present with cA set, and keyCertSign asserted. */
  predicate IsCaProfile(c: Certificate) {
    c.basicConstraintsValid && c.isCA && CertSign in c.keyUsage
  }

  /** An end-entity certificate: cA not asserted, and therefore (section
      4.2.1.3 of RFC 5280) no keyCertSign bit. */
  predicate IsEndEntityProfile(c: Certificate) {
    !c.isCA && CertSign !in c.keyUsage
  }

  /** The validity window opens at `start` and lasts `duration`. */
  predicate ValidFor(c: Certificate, start: Time, duration: Duration) {
    c.notBefore == start && c.notAfter == start + duration
  }

  /** An instant cut down to a whole second, as X.509 time encodings store it. */
  function TruncateToSecond(t: Time): (s: Time)
    ensures s <= t < s + NanosPerSecond
    ensures s % NanosPerSecond == 0
  {
    (t / NanosPerSecond) * NanosPerSecond
  }
}
